=== FILE: README.md ===
# jcukeforker worker and logging listener, modelled in Dafny

jcukeforker runs Cucumber features in parallel worker processes. A worker
registers on a status channel and then reads tasks from a task channel, one
JSON line at a time. For each task it reports `on_task_starting`, runs the
test engine with its standard streams captured to files, and reports
`on_task_finished`. When it reads the sentinel `__KILL__` it reports
`on_worker_dead` and stops. A console listener renders these events, and
the coordinator's run-level events, as fixed-width log lines.

This project models two pieces:

- the worker's task/status protocol (`lib/jcukeforker/worker.rb`), treated as
  one pure function `Worker.Run` from the lines it reads to the status
  messages it writes, the engine calls it makes, and how it ends;
- the listener's message bodies (`lib/jcukeforker/logging_listener.rb`), as
  pure string functions.

The modules are:

- `Wrappers`: `Option`.
- `Text`: the Ruby string operations the code relies on. These are
  `String#strip`, `gsub(/\W/, '_')`, `ljust` and `File.join`.
- `Status`: the status message `[meth, task_path, *args]`, the four worker
  events, and their encoding and decoding.
- `Worker`: the worker state, `set_state`, the `basename` memo, the artifact
  paths, the engine argument list and the task loop.
- `WorkerTrace`: whole-run theorems. These cover the exact message sequence,
  the error endings, the event order, that nothing after the sentinel is
  read, and the base-name finding.
- `LoggingListener`: every callback's log line, read back and laid out.
- `RunLog`: what the listener logs for a worker's run.

Abstractions:

- Ruby's `String#strip` is modelled as it behaves from Ruby 2.6 on. It
  removes NUL, tab, line feed, vertical tab, form feed, carriage return and
  space from both ends.
- The task channel is the sequence of lines `gets` would return. Running
  out of lines stands for `gets` returning nil.
- `JSON.parse` is the parameter `decode: string -> Option<Task>`. `None` is
  a parse failure.
- The engine's result for the k-th task is `results[k]`, an oracle. `Run`
  requires one result per task line before the first sentinel.
- The coordinator reads each status message `[meth, path, *args]` and calls
  the listener's `meth(path, *args)`. That dispatch is not in the modelled
  files. `LoggingListener.Forward` assumes it, and so do
  `LoggingListener.ForwardEncode` and `RunLog.RunIsLogged`.
- Whether the artifact base name is memoised across tasks (as written) or
  computed per task (corrected) is the parameter `BasenamePolicy`. Every
  trace theorem holds under both policies. See "Findings".

## Model

| member | source | states |
|---|---|---|
| Text.StripShape | lib/jcukeforker/worker.rb:33 | `strip` removes the leading and trailing whitespace and nothing else: the result is a contiguous slice of the input, the cut parts are all whitespace, and the result neither starts nor ends with whitespace |
| Text.StripPadded | lib/jcukeforker/worker.rb:33 | any whitespace around a text that neither starts nor ends with whitespace is removed exactly |
| Text.Strip | lib/jcukeforker/worker.rb:33 | `strip` as a definition: it drops the leading whitespace, then the trailing whitespace. Whitespace is NUL, tab, line feed, vertical tab, form feed, carriage return and space. `Text.StripShape` states what remains |
| Text.StripBlank | lib/jcukeforker/worker.rb:33 | a line of whitespace alone strips to the empty text, so a blank line is never the sentinel |
| Worker.IsKill | lib/jcukeforker/worker.rb:33 | as a definition: a line is the sentinel when its stripped text is `__KILL__`. `Worker.KillWhenPadded` and `Worker.KillOnlyWhenPadded` characterise these lines exactly |
| Worker.KillWhenPadded | lib/jcukeforker/worker.rb:33 | `__KILL__` with any whitespace around it, such as the newline `gets` keeps, is read as the sentinel |
| Worker.KillOnlyWhenPadded | lib/jcukeforker/worker.rb:33 | a line is the sentinel only if it is `__KILL__` with whitespace around it |
| Status.UpdateStatus | lib/jcukeforker/worker.rb:44-49 | a message is the method name, then the worker's task path, then the arguments in order and unchanged |
| Status.Encode | lib/jcukeforker/worker.rb:44-49 | every event's message starts with the event's callback name and the task path |
| Status.Decode | lib/jcukeforker/worker.rb:44-49 | a message that decodes names its worker and event in its first two elements |
| Status.DecodeEncode | lib/jcukeforker/worker.rb:44-49 | every message a worker writes decodes back to the worker's task path and the event |
| Status.EncodeDecode | lib/jcukeforker/worker.rb:44-49 | only messages a worker could have written decode |
| Status.EncodeInjective | lib/jcukeforker/worker.rb:44-49 | two messages from the same worker are equal exactly when their events are |
| Worker.Fresh | lib/jcukeforker/worker.rb:13-17 | a new worker knows its task path and has no memoised base name |
| Worker.SetState | lib/jcukeforker/worker.rb:75-81 | after `set_state` the worker's format, feature, extra arguments and output directory are the parsed task's; the task path and the memo are untouched |
| Worker.SetStateOverwrites | lib/jcukeforker/worker.rb:75-81 | a second `set_state` erases every trace of the first task |
| Worker.Basename | lib/jcukeforker/worker.rb:63-65 | as written, the first call sanitises the current feature and memoises it, and every later call returns the memo unchanged; per task, the name is always the current feature sanitised |
| Worker.BasenameStable | lib/jcukeforker/worker.rb:63-65 | asking for the base name again returns the same name and changes nothing |
| Text.Sanitize | lib/jcukeforker/worker.rb:64 | every non-word character becomes `_`, every word character stays, and the length is kept |
| Text.SanitizeFixpoint | lib/jcukeforker/worker.rb:64 | sanitising leaves a text unchanged exactly when it is all word characters |
| Text.SanitizeIdempotent | lib/jcukeforker/worker.rb:64 | sanitising twice is sanitising once |
| Text.Join | lib/jcukeforker/worker.rb:52 | `File.join` keeps the directory and the name and puts exactly one `/` between them unless the directory already ends in one |
| Text.JoinInjective | lib/jcukeforker/worker.rb:51-61 | in one directory, two names join to the same path exactly when they are equal |
| Worker.Artifact | lib/jcukeforker/worker.rb:51-61 | an artifact path starts with the output directory. A `/` follows the directory unless it already ends in one. The path ends in `.` and its extension |
| Worker.ArtifactInjective | lib/jcukeforker/worker.rb:51-65 | in one directory, two artifact paths whose base names are made of word characters, as every `basename` is, coincide exactly when the base names and the extensions do |
| Worker.Output | lib/jcukeforker/worker.rb:51-53 | the engine's report path is the output directory and a separating `/`, then a name that ends in `.` and the task's format. The format is spliced in verbatim, so this is a statement about the text of the path, not about where the file ends up |
| Worker.Stdout | lib/jcukeforker/worker.rb:55-57 | the captured standard output path is the output directory and a separating `/`, then a name ending in `.stdout`. It is never the task's `stderr` file |
| Worker.Stderr | lib/jcukeforker/worker.rb:59-61 | the captured standard error path is the output directory and a separating `/`, then a name ending in `.stderr` |
| Worker.StreamsDistinct | lib/jcukeforker/worker.rb:55-61 | a task's captured standard output and standard error never share a file |
| Worker.Args | lib/jcukeforker/worker.rb:67-73 | the engine gets `--format`, the format, `--out`, the report path, the extra arguments verbatim and in order, then the feature |
| Worker.ArgsRoundTrip | lib/jcukeforker/worker.rb:67-73 | the argument list loses nothing: format, report path, extra arguments and feature read back |
| Worker.CallArgs | lib/jcukeforker/worker.rb:67-73 | the arguments of an engine call name the call's report file and its task's format, extra arguments and feature |
| Worker.Execute | lib/jcukeforker/worker.rb:83-95 | the engine runs the current task under the base name `stdout` asks for first. As written, that is the memo if one is set, and otherwise the sanitised current feature, which is then memoised; per task, it is always the sanitised current feature and the memo is untouched. The later `stderr` and `output` calls find the same name and change nothing |
| Worker.TaskCountPrefix | lib/jcukeforker/worker.rb:31-36 | the loop's task lines are the lines before the first sentinel |
| Worker.Serve | lib/jcukeforker/worker.rb:31-41 | the loop runs each task line in order and reports its start, then its finish with that task's engine result; it answers the first sentinel with `on_worker_dead`, and fails on a parse error or on the end of input |
| Worker.Run | lib/jcukeforker/worker.rb:19-42 | `on_worker_register` comes first, then two messages per task, and `on_worker_dead` is last exactly when the run stopped on the sentinel |
| WorkerTrace.RunTasksThenSentinel | lib/jcukeforker/worker.rb:29-42 | N task lines and the sentinel give exactly register, the N start/finish pairs in input order with their results, and dead; N + 1 lines are read and the engine runs each task in order |
| WorkerTrace.RunWithoutSentinel | lib/jcukeforker/worker.rb:31-33 | when the input ends without the sentinel, the run ends in the nil `strip` error after the pairs, and `on_worker_dead` is never sent |
| WorkerTrace.RunMalformedLine | lib/jcukeforker/worker.rb:75-76 | a line that is neither the sentinel nor valid JSON stops the run at that line with a parse error, after the earlier pairs and without `on_worker_dead` |
| WorkerTrace.RunEventOrder | lib/jcukeforker/worker.rb:19-42 | in every run, every message decodes to an event of this worker; register is the first message and only the first; dead can only be the last |
| WorkerTrace.RunIgnoresLinesAfterSentinel | lib/jcukeforker/worker.rb:33-36 | once the run has stopped on the sentinel, appending more input changes nothing |
| WorkerTrace.RunCoversPrefix | lib/jcukeforker/worker.rb:31-41 | whatever follows, a prefix of task lines is run in full and in order |
| WorkerTrace.MemoisedRunNames | lib/jcukeforker/worker.rb:63-65 | as written, every engine call of a run is named after the first task's feature |
| WorkerTrace.PerTaskRunNames | lib/jcukeforker/worker.rb:63-65 | corrected, every engine call is named after its own task's feature |
| WorkerTrace.MemoisedArtifactsCollide | lib/jcukeforker/worker.rb:55-65 | as written, two tasks in a row writing to one directory share their stdout and stderr files, whatever their features |
| WorkerTrace.PerTaskArtifactsSeparate | lib/jcukeforker/worker.rb:55-65 | corrected, two such tasks whose features sanitise differently get different stdout, stderr and report files |
| WorkerTrace.MemoisedCollisionExample | lib/jcukeforker/worker.rb:63-64 | as written, on the input "task on `features/a.feature`, task on `features/b.feature`, `__KILL__`", both tasks into `/tmp/o`: the input holds two tasks, they run in order, and the second task's stdout goes to the first task's file |
| WorkerTrace.PerTaskSeparationExample | lib/jcukeforker/worker.rb:63-64 | corrected, on the same input, the two tasks keep separate stdout files |
| LoggingListener.OnRunStarting | lib/jcukeforker/logging_listener.rb:11-13 | as a definition: the run header, then `starting`. `LoggingListener.RunLines` and `LoggingListener.RenderShape` state its shape |
| LoggingListener.OnWorkerRegister | lib/jcukeforker/logging_listener.rb:15-17 | the registration line reads back as this worker's `register` event |
| LoggingListener.OnWorkerDead | lib/jcukeforker/logging_listener.rb:19-21 | the death line reads back as this worker's `dead` event |
| LoggingListener.OnTaskStarting | lib/jcukeforker/logging_listener.rb:23-25 | the start line reads back as the start of exactly this feature |
| LoggingListener.OnTaskFinished | lib/jcukeforker/logging_listener.rb:27-29 | the finish line reads back as the finish of exactly this feature with exactly this status; the status word padded to eight columns is the tag the reader expects |
| LoggingListener.OnRunFinished | lib/jcukeforker/logging_listener.rb:31-33 | the summary is 37 characters: the run header, `finished, `, then `failed` exactly when the run failed and `passed` exactly when it did not |
| LoggingListener.OnRunInterrupted | lib/jcukeforker/logging_listener.rb:35-38 | as a definition: `puts "\n"`, then the run header and `interrupted - please wait` logged. `LoggingListener.RenderShape` states the order |
| LoggingListener.Render | lib/jcukeforker/logging_listener.rb:11-38 | as a definition: each callback is answered by the listener method of the same name. `LoggingListener.RenderShape` and `LoggingListener.WorkerLineLayout` state what it writes |
| LoggingListener.WorkerId | lib/jcukeforker/logging_listener.rb:46-48 | as a definition: a worker is shown by its task path, unchanged. `LoggingListener.WorkerHeaderLayout` states that the header shows all of it |
| LoggingListener.StatusString | lib/jcukeforker/logging_listener.rb:42-44 | `status_string` gives a six-character word: `passed` exactly for true and `failed` exactly for false |
| LoggingListener.WorkerHeader | lib/jcukeforker/logging_listener.rb:16-28 | the worker header is 18 characters plus the id field, which is the path's length but at least 3 |
| LoggingListener.WorkerHeaderLayout | lib/jcukeforker/logging_listener.rb:16 | the header shows the whole worker path, left-justified with spaces to three characters and never cut, inside `[    worker  ` … `   ] ` |
| Text.LJust | lib/jcukeforker/logging_listener.rb:28 | `ljust` keeps the text, pads it with spaces up to the width, and never truncates |
| Text.LJustUnchangedIff | lib/jcukeforker/logging_listener.rb:16 | `ljust` leaves a text unchanged exactly when it is already at least as wide as the field, so a worker id of three or more characters is shown without padding |
| Text.LJustIdempotent | lib/jcukeforker/logging_listener.rb:28 | padding an already padded text to the same width changes nothing |
| LoggingListener.WorkerLineLayout | lib/jcukeforker/logging_listener.rb:15-29 | every worker callback logs the header, an eight-character tag, `: ` and the payload; the status column of a finished task is exactly eight wide |
| LoggingListener.ReadEventLine | lib/jcukeforker/logging_listener.rb:15-29 | a worker's log line reads back as the event it was logged for |
| LoggingListener.ReadOnlyEventLines | lib/jcukeforker/logging_listener.rb:15-29 | a line that reads as a worker event is exactly that event's line |
| LoggingListener.EventLineInjective | lib/jcukeforker/logging_listener.rb:15-29 | for one worker, different events are logged as different lines |
| LoggingListener.ShortIdsAlign | lib/jcukeforker/logging_listener.rb:11-16 | for worker ids of at most three characters, the worker header is as wide as the run header (21 characters) |
| LoggingListener.RunLines | lib/jcukeforker/logging_listener.rb:31-33 | run lines start with the run header, and the summary ends in `failed` exactly when the run failed and in `passed` exactly when it did not |
| LoggingListener.RenderShape | lib/jcukeforker/logging_listener.rb:35-38 | an interrupt first prints a line break on standard output and then logs its line; every other callback logs one line and prints nothing |
| LoggingListener.Forward | lib/jcukeforker/logging_listener.rb:15-29 | a status message reaches the listener exactly when it decodes as a worker event, and it is then logged as one info line. The dispatch from message to callback is assumed (see Abstractions) |
| LoggingListener.ForwardEncode | lib/jcukeforker/logging_listener.rb:15-29 | each status message a worker writes is logged as the line of its event |
| RunLog.RunIsLogged | lib/jcukeforker/logging_listener.rb:15-29 | every message of a worker's run is logged as one line of its event, and the first is the worker's `register` line |

## Left out

- Sockets are not modelled. `TCPSocket`, `UNIXServer`, `accept` and `close`
  stand for the sequence of input lines and the list of messages written.
  Channel failures are not modelled.
- JSON is not modelled. `JSON.parse` is the `decode` parameter, and a message
  is a list of tagged values rather than JSON text. Fields missing from the
  parsed object are not modelled.
- The test engine is an oracle result per task. Also left out are
  `mkdir_p`/`File.exist?`, the `$stdout`/`$stderr` reopen and flush, and what
  the engine writes into the artifact files.
- The call at `worker.rb:39` passes `raw_message` to `execute_cucumber`,
  which takes no parameters (`worker.rb:83`). Ruby would raise
  `ArgumentError` on the first task. The model runs the engine as the call
  evidently intends.
- The engine's return value is named `failed` in `execute_cucumber`. It is
  sent unchanged as the `status` argument of `on_task_finished`, which the
  listener renders `passed` when true. Whether this is inverted depends on
  the engine, which is not part of this model.
- The process entry point is not modelled: `ARGV`, `close`, and the
  top-level script at `worker.rb:99-102`. `Run` covers `register` and `run`.
- The `Logger` itself is left out: its severity/timestamp/pid prefix,
  `TIME_FORMAT` and the `@io` target. Each callback's message text is
  modelled.
- The end of input is modelled as the fault the code raises: `gets`
  returns nil and `nil.strip` raises. No `on_worker_dead` is sent. An idle
  read that waits and retries does not exist in this code.
- Worker.Output: the path's text starts with the output directory and a `/`.
  `File.join` does not normalise, so a format containing `/` or `..` can put
  the report outside the output directory. The model does not claim
  otherwise.
- Worker.Run: states the message count and the first and last messages
  only. The message contents are stated by `Worker.Serve` and the
  `WorkerTrace` theorems.

## Findings

| source | as written | input that shows it | evidently intended | confidence | as-written member | corrected member |
|---|---|---|---|---|---|---|
| lib/jcukeforker/worker.rb:63-65 | `@basename ||=` memoises the sanitised feature of the first task a worker runs. `set_state` never resets it, so every later task's report, stdout and stderr files are named after the first task's feature. The defect is latent: as written, the call at `worker.rb:39` already raises `ArgumentError` on the first task (see "Left out"). The collision shows once that call is fixed. The model runs the engine as the call intends, so it reaches the collision | two tasks on `features/a.feature` and `features/b.feature`, both with `out` `/tmp/o`: once `worker.rb:39` is fixed, the second task's stdout is captured to `/tmp/o/features_a_feature.stdout`, overwriting the first task's | the base name is derived from each task's own feature | medium; not executed | WorkerTrace.MemoisedArtifactsCollide | WorkerTrace.PerTaskArtifactsSeparate |

The task loop `Worker.Serve` takes the policy as a parameter. The
as-written behaviour is `Memoised`, shown by `WorkerTrace.MemoisedRunNames`
and `WorkerTrace.MemoisedCollisionExample`. The corrected behaviour is
`PerTask`, shown by `WorkerTrace.PerTaskRunNames` and
`WorkerTrace.PerTaskSeparationExample`. All other theorems hold under both.

=== FILE: logging_listener.dfy ===
/**
 * The console listener's rendering of run and worker events. Each callback
 * logs one fixed-width line at level info: a bracketed header naming the run
 * or the worker, then the event. The logger's own prefix (severity,
 * timestamp, process id) is not part of the message and is not modelled.
 */
module LoggingListener {
  import opened Wrappers
  import opened Text
  import opened Status

  /** What a callback writes: text through `puts` on standard output, or a
      message logged at level info. */
  datatype Write = Puts(text: string) | Info(message: string)

  /** The callbacks a listener answers: the run-level ones the coordinator
      raises, and the worker events it forwards from the status stream. */
  datatype Callback =
    | RunStarting
    | WorkerEvent(workerPath: string, event: Event)
    | RunFinished(failed: bool)
    | RunInterrupted

  /** The header of every run-level line. */
  const RunHeader := "[    run           ] "

  /** `status_string`: true reads as a pass. */
  function StatusString(status: bool): (r: string)
    ensures |r| == 6
    ensures status <==> r == "passed"
    ensures !status <==> r == "failed"
  {
    if status then "passed" else "failed"
  }

  /** `worker_id`: a worker is shown by its task path. */
  function WorkerId(workerPath: string): string {
    workerPath
  }

  /** The header of every worker line: the worker id left-justified in a
      field of three characters, inside brackets. */
  function WorkerHeader(workerPath: string): (h: string)
    ensures |h| == 18 + (if |workerPath| > 3 then |workerPath| else 3)
  {
    "[    worker  " + LJust(WorkerId(workerPath), 3) + "   ] "
  }

  /** The header shows the whole worker path, padded with spaces to at least
      three characters and never cut. */
  lemma WorkerHeaderLayout(workerPath: string)
    ensures var h := WorkerHeader(workerPath);
      && h[..13] == "[    worker  " && h[13..13 + |workerPath|] == workerPath
      && AllBlanks(h[13 + |workerPath|..|h| - 2]) && h[|h| - 2..] == "] "
  {
    var h := WorkerHeader(workerPath);
    var id := LJust(workerPath, 3);
    var n := |workerPath|;
    assert h == "[    worker  " + id + "   ] ";
    forall i | 0 <= i < n
      ensures h[13 + i] == workerPath[i]
    {
      assert h[13 + i] == id[i] && id[i] == id[..n][i];
    }
    forall i | 13 + n <= i < |h| - 2
      ensures h[i] == ' '
    {
      if i < 13 + |id| {
        assert h[i] == id[i - 13] == id[n..][i - 13 - n];
      }
    }
  }

  /** `on_run_starting`. */
  function OnRunStarting(): string {
    RunHeader + "starting"
  }

  /** `on_worker_register`: a line that reads back as this worker's registration. */
  function OnWorkerRegister(workerPath: string): (r: string)
    ensures ReadWorkerLine(workerPath, r) == Some(WorkerRegister)
  {
    ReadEventLine(workerPath, WorkerRegister);
    ColumnLine(workerPath, WorkerRegister, "register: ");
    WorkerHeader(workerPath) + "register: " + workerPath
  }

  /** `on_worker_dead`: a line that reads back as this worker's death. */
  function OnWorkerDead(workerPath: string): (r: string)
    ensures ReadWorkerLine(workerPath, r) == Some(WorkerDead)
  {
    ReadEventLine(workerPath, WorkerDead);
    ColumnLine(workerPath, WorkerDead, "dead    : ");
    WorkerHeader(workerPath) + "dead    : " + workerPath
  }

  /** `on_task_starting`: a line that reads back as the start of this feature. */
  function OnTaskStarting(workerPath: string, feature: string): (r: string)
    ensures ReadWorkerLine(workerPath, r) == Some(TaskStarting(feature))
  {
    ReadEventLine(workerPath, TaskStarting(feature));
    ColumnLine(workerPath, TaskStarting(feature), "starting: ");
    WorkerHeader(workerPath) + "starting: " + feature
  }

  /** `on_task_finished`: a line that reads back as the finish of this
      feature with this status; the status word is padded to eight columns. */
  function OnTaskFinished(workerPath: string, feature: string, status: bool): (r: string)
    ensures ReadWorkerLine(workerPath, r) == Some(TaskFinished(feature, status))
  {
    ReadEventLine(workerPath, TaskFinished(feature, status));
    assert LJust("passed", 8) == "passed  " && LJust("failed", 8) == "failed  ";
    ColumnLine(workerPath, TaskFinished(feature, status), LJust(StatusString(status), 8) + ": ");
    WorkerHeader(workerPath) + LJust(StatusString(status), 8) + ": " + feature
  }

  /** `on_run_finished`: the summary reports `failed` exactly when the run
      failed and `passed` exactly when it did not. */
  function OnRunFinished(failed: bool): (r: string)
    ensures |r| == 37 && r[..21] == RunHeader && r[21..31] == "finished, "
    ensures failed <==> r[31..] == "failed"
    ensures !failed <==> r[31..] == "passed"
  {
    RunHeader + "finished, " + StatusString(!failed)
  }

  function OnRunInterrupted(): seq<Write> {
    [Puts("\n"), Info(RunHeader + "interrupted - please wait")]
  }

  /** What the listener writes for a callback. */
  function Render(c: Callback): seq<Write> {
    match c
    case RunStarting => [Info(OnRunStarting())]
    case WorkerEvent(p, WorkerRegister) => [Info(OnWorkerRegister(p))]
    case WorkerEvent(p, WorkerDead) => [Info(OnWorkerDead(p))]
    case WorkerEvent(p, TaskStarting(f)) => [Info(OnTaskStarting(p, f))]
    case WorkerEvent(p, TaskFinished(f, s)) => [Info(OnTaskFinished(p, f, s))]
    case RunFinished(failed) => [Info(OnRunFinished(failed))]
    case RunInterrupted => OnRunInterrupted()
  }

  /** The eight-character column that names a worker event. */
  function Tag(e: Event): string {
    match e
    case WorkerRegister => "register"
    case WorkerDead => "dead    "
    case TaskStarting(_) => "starting"
    case TaskFinished(_, s) => if s then "passed  " else "failed  "
  }

  /** What follows the tag: the worker path for register and dead, the
      feature for the task events. */
  function Payload(workerPath: string, e: Event): string {
    match e
    case WorkerRegister => workerPath
    case WorkerDead => workerPath
    case TaskStarting(f) => f
    case TaskFinished(f, _) => f
  }

  /** Every worker line is the header, the eight-character tag, `: ` and the
      payload; the status column of a finished task is exactly eight wide. */
  lemma WorkerLineLayout(workerPath: string, e: Event)
    ensures |Tag(e)| == 8
    ensures Render(WorkerEvent(workerPath, e))
         == [Info(WorkerHeader(workerPath) + Tag(e) + ": " + Payload(workerPath, e))]
  {
    var h := WorkerHeader(workerPath);
    var column := match e
      case WorkerRegister => "register: "
      case WorkerDead => "dead    : "
      case TaskStarting(_) => "starting: "
      case TaskFinished(_, s) => LJust(StatusString(s), 8) + ": ";
    if e.TaskFinished? {
      if e.status {
        assert LJust("passed", 8) == "passed  ";
      } else {
        assert LJust("failed", 8) == "failed  ";
      }
    }
    assert column == Tag(e) + ": ";
    Regroup(h, Tag(e), ": ", Payload(workerPath, e));
  }

  /** A worker line written with its tag and separator as one column is the event's line. */
  lemma ColumnLine(workerPath: string, e: Event, column: string)
    requires column == Tag(e) + ": "
    ensures WorkerHeader(workerPath) + column + Payload(workerPath, e) == EventLine(workerPath, e)
  {
    Regroup(WorkerHeader(workerPath), Tag(e), ": ", Payload(workerPath, e));
  }

  lemma Regroup(a: string, b: string, c: string, d: string)
    ensures a + (b + c) + d == a + b + c + d
  {
  }

  /** The event a tag and payload name, for the worker at `workerPath`. */
  function TagEvent(workerPath: string, tag: string, payload: string): Option<Event> {
    if tag == "register" then (if payload == workerPath then Some(WorkerRegister) else None)
    else if tag == "dead    " then (if payload == workerPath then Some(WorkerDead) else None)
    else if tag == "starting" then Some(TaskStarting(payload))
    else if tag == "passed  " then Some(TaskFinished(payload, true))
    else if tag == "failed  " then Some(TaskFinished(payload, false))
    else None
  }

  /** Reads a worker line back, knowing which worker wrote it. */
  function ReadWorkerLine(workerPath: string, line: string): Option<Event> {
    var h := WorkerHeader(workerPath);
    if |line| < |h| + 10 || line[..|h|] != h || line[|h| + 8..|h| + 10] != ": " then None
    else TagEvent(workerPath, line[|h|..|h| + 8], line[|h| + 10..])
  }

  /** The tag and payload of an event name that event and no other. */
  lemma TagEventRoundTrip(workerPath: string, tag: string, payload: string, e: Event)
    ensures TagEvent(workerPath, tag, payload) == Some(e) <==> Tag(e) == tag && Payload(workerPath, e) == payload
  {
  }

  /** The fields of a line laid out as header, tag, `: `, payload. */
  lemma Fields(h: string, tag: string, payload: string)
    requires |tag| == 8
    ensures var line := h + tag + ": " + payload;
      && |line| == |h| + 10 + |payload|
      && line[..|h|] == h && line[|h|..|h| + 8] == tag
      && line[|h| + 8..|h| + 10] == ": " && line[|h| + 10..] == payload
  {
  }

  /** A line split at header, tag, separator and payload is their concatenation. */
  lemma Unfields(line: string, n: nat)
    requires |line| >= n + 10
    ensures line == line[..n] + line[n..n + 8] + line[n + 8..n + 10] + line[n + 10..]
  {
  }

  /** The line a worker event is logged as. */
  function EventLine(workerPath: string, e: Event): string {
    WorkerHeader(workerPath) + Tag(e) + ": " + Payload(workerPath, e)
  }

  /** Reading a worker's log line gives back the event it was written for. */
  lemma ReadEventLine(workerPath: string, e: Event)
    ensures ReadWorkerLine(workerPath, EventLine(workerPath, e)) == Some(e)
  {
    Fields(WorkerHeader(workerPath), Tag(e), Payload(workerPath, e));
    TagEventRoundTrip(workerPath, Tag(e), Payload(workerPath, e), e);
  }

  /** A line that reads as a worker event is exactly that event's line. */
  lemma ReadOnlyEventLines(workerPath: string, line: string)
    requires ReadWorkerLine(workerPath, line).Some?
    ensures EventLine(workerPath, ReadWorkerLine(workerPath, line).value) == line
  {
    var h := WorkerHeader(workerPath);
    var e := ReadWorkerLine(workerPath, line).value;
    TagEventRoundTrip(workerPath, line[|h|..|h| + 8], line[|h| + 10..], e);
    Unfields(line, |h|);
  }

  /** For one worker, different events are logged as different lines. */
  lemma EventLineInjective(workerPath: string, a: Event, b: Event)
    ensures EventLine(workerPath, a) == EventLine(workerPath, b) <==> a == b
  {
    ReadEventLine(workerPath, a);
    ReadEventLine(workerPath, b);
  }

  /** Workers whose ids fit the three-character field write their event tags
      in the same column as the run lines' text. */
  lemma ShortIdsAlign(workerPath: string)
    requires |workerPath| <= 3
    ensures |WorkerHeader(workerPath)| == |RunHeader| == 21
  {
  }

  /** The run-level lines: all begin with the run header, and the summary
      line ends in `failed` exactly when the run failed. */
  lemma RunLines(failed: bool)
    ensures OnRunStarting()[..21] == RunHeader
    ensures OnRunFinished(failed)[..21] == RunHeader
    ensures OnRunFinished(failed)[21..31] == "finished, "
    ensures failed <==> OnRunFinished(failed)[31..] == "failed"
    ensures !failed <==> OnRunFinished(failed)[31..] == "passed"
  {
  }

  /** An interrupt first prints a line break on standard output, then logs
      its line; every other callback logs one line and prints nothing. */
  lemma RenderShape(c: Callback)
    ensures c.RunInterrupted? ==> |Render(c)| == 2 && Render(c)[0] == Puts("\n") && Render(c)[1].Info?
    ensures !c.RunInterrupted? ==> |Render(c)| == 1 && Render(c)[0].Info?
    ensures forall i :: 0 <= i < |Render(c)| && Render(c)[i].Info? ==> |Render(c)[i].message| >= 21
  {
  }

  /** The listener's answer to a message on the status stream: the callback
      named by the message's first element, with the worker and the
      arguments that follow; nothing for a message no worker writes. This
      dispatch belongs to the coordinator, which is not part of this model. */
  function Forward(m: Message): (r: Option<seq<Write>>)
    ensures r.Some? <==> Decode(m).Some?
    ensures r.Some? ==> |r.value| == 1 && r.value[0].Info?
  {
    match Decode(m)
    case None => None
    case Some((p, e)) =>
      RenderShape(WorkerEvent(p, e));
      Some(Render(WorkerEvent(p, e)))
  }

  /** Every status message a worker writes is logged as its event's line. */
  lemma ForwardEncode(taskPath: string, e: Event)
    ensures Forward(Encode(taskPath, e)) == Some([Info(EventLine(taskPath, e))])
  {
    DecodeEncode(taskPath, e);
    WorkerLineLayout(taskPath, e);
  }
}

=== FILE: run_log.dfy ===
/**
 * The console log of one worker's run: what the listener writes for the
 * status messages the worker's task loop produces.
 */
module RunLog {
  import opened Wrappers
  import opened Status
  import opened Worker
  import opened WorkerTrace
  import opened LoggingListener

  /** Each message of an ordered stream is logged as the line of the event it carries. */
  lemma LoggedInOrder(taskPath: string, ms: seq<Message>)
    requires EventOrder(taskPath, ms)
    ensures forall i :: 0 <= i < |ms| ==>
      Forward(ms[i]) == Some([Info(EventLine(taskPath, Decode(ms[i]).value.1))])
  {
    forall i | 0 <= i < |ms|
      ensures Forward(ms[i]) == Some([Info(EventLine(taskPath, Decode(ms[i]).value.1))])
    {
      EncodeDecode(ms[i]);
      ForwardEncode(taskPath, Decode(ms[i]).value.1);
    }
  }

  /** Every message a run writes reaches the console as one log line, the
      first of them the worker's `register` line. */
  lemma RunIsLogged(taskPath: string, lines: seq<string>, results: seq<bool>,
                    decode: string -> Option<Task>, policy: BasenamePolicy)
    requires |results| >= TaskCount(lines)
    ensures var ms := Run(taskPath, lines, results, decode, policy).messages;
      && Forward(ms[0]) == Some([Info(OnWorkerRegister(taskPath))])
      && forall i :: 0 <= i < |ms| ==>
           Decode(ms[i]).Some? && Forward(ms[i]) == Some([Info(EventLine(taskPath, Decode(ms[i]).value.1))])
  {
    var ms := Run(taskPath, lines, results, decode, policy).messages;
    RunEventOrder(taskPath, lines, results, decode, policy);
    LoggedInOrder(taskPath, ms);
    ForwardEncode(taskPath, WorkerRegister);
    WorkerLineLayout(taskPath, WorkerRegister);
  }
}

=== FILE: status.dfy ===
/**
 * The worker's status messages. On the wire a message is a JSON array whose
 * first element is the event name (a Ruby symbol such as `:on_task_starting`),
 * whose second element is the worker's task path, and whose remaining
 * elements are the event's positional arguments.
 */
module Status {
  import opened Wrappers

  /** The JSON values a status message can carry. */
  datatype Value = Str(text: string) | Bool(flag: bool)

  type Message = seq<Value>

  /** `update_status(meth, *args)`: `[meth, task_path]` followed by `args`. */
  function UpdateStatus(taskPath: string, meth: string, args: seq<Value>): (m: Message)
    ensures |m| == 2 + |args|
    ensures m[0] == Str(meth) && m[1] == Str(taskPath)
    ensures m[2..] == args
  {
    [Str(meth), Str(taskPath)] + args
  }

  /** The four events a worker reports. */
  datatype Event =
    | WorkerRegister
    | TaskStarting(feature: string)
    | TaskFinished(feature: string, status: bool)
    | WorkerDead

  /** The callback name each event is sent under. */
  function Name(e: Event): string {
    match e
    case WorkerRegister => "on_worker_register"
    case TaskStarting(_) => "on_task_starting"
    case TaskFinished(_, _) => "on_task_finished"
    case WorkerDead => "on_worker_dead"
  }

  /** The positional arguments each event carries after the task path. */
  function Arguments(e: Event): seq<Value> {
    match e
    case WorkerRegister => []
    case TaskStarting(f) => [Str(f)]
    case TaskFinished(f, s) => [Str(f), Bool(s)]
    case WorkerDead => []
  }

  /** The message a worker at `taskPath` writes for `e`. */
  function Encode(taskPath: string, e: Event): (m: Message)
    ensures |m| >= 2 && m[0] == Str(Name(e)) && m[1] == Str(taskPath)
  {
    UpdateStatus(taskPath, Name(e), Arguments(e))
  }

  /** How a reader of the status stream recovers the worker and the event. */
  function Decode(m: Message): (r: Option<(string, Event)>)
    ensures r.Some? ==> |m| >= 2 && m[1] == Str(r.value.0) && m[0] == Str(Name(r.value.1))
  {
    if |m| < 2 || !m[0].Str? || !m[1].Str? then None
    else
      var path := m[1].text;
      match m[0].text
      case "on_worker_register" => if |m| == 2 then Some((path, WorkerRegister)) else None
      case "on_worker_dead" => if |m| == 2 then Some((path, WorkerDead)) else None
      case "on_task_starting" =>
        if |m| == 3 && m[2].Str? then Some((path, TaskStarting(m[2].text))) else None
      case "on_task_finished" =>
        if |m| == 4 && m[2].Str? && m[3].Bool? then Some((path, TaskFinished(m[2].text, m[3].flag)))
        else None
      case _ => None
  }

  /** Every message a worker writes decodes back to its sender and event. */
  lemma DecodeEncode(taskPath: string, e: Event)
    ensures Decode(Encode(taskPath, e)) == Some((taskPath, e))
  {
  }

  /** Decoding accepts only messages a worker could have written. */
  lemma EncodeDecode(m: Message)
    requires Decode(m).Some?
    ensures Encode(Decode(m).value.0, Decode(m).value.1) == m
  {
  }

  /** Two messages from the same worker are equal exactly when their events are. */
  lemma EncodeInjective(taskPath: string, a: Event, b: Event)
    ensures Encode(taskPath, a) == Encode(taskPath, b) <==> a == b
  {
    if Encode(taskPath, a) == Encode(taskPath, b) {
      DecodeEncode(taskPath, a);
      DecodeEncode(taskPath, b);
    }
  }
}

=== FILE: text.dfy ===
/**
 * The Ruby string and path primitives the worker and the listener rely on:
 * `String#strip`, `String#gsub(/\W/, '_')`, `String#ljust` and `File.join`,
 * stated over `seq<char>` with ASCII character classes.
 */
module Text {

  /** Whitespace removed by Ruby's `String#strip`: NUL, tab, line feed,
      vertical tab, form feed, carriage return and space. */
  predicate IsSpace(c: char) {
    c == ' ' || c as int == 0 || (9 <= c as int <= 13)
  }

  predicate AllSpace(s: string) {
    forall i :: 0 <= i < |s| ==> IsSpace(s[i])
  }

  /** A string with no whitespace at either end. */
  predicate Trimmed(s: string) {
    |s| == 0 || (!IsSpace(s[0]) && !IsSpace(s[|s| - 1]))
  }

  /** Removes leading whitespace (the first half of `strip`). */
  function TrimLeft(s: string): string {
    if |s| > 0 && IsSpace(s[0]) then TrimLeft(s[1..]) else s
  }

  /** Removes trailing whitespace (the second half of `strip`). */
  function TrimRight(s: string): string {
    if |s| > 0 && IsSpace(s[|s| - 1]) then TrimRight(s[..|s| - 1]) else s
  }

  /** What `TrimLeft` removes is exactly a whitespace prefix, and what it
      keeps does not start with whitespace. */
  lemma {:induction false} TrimLeftShape(s: string)
    ensures |TrimLeft(s)| <= |s| && TrimLeft(s) == s[|s| - |TrimLeft(s)|..]
    ensures AllSpace(s[..|s| - |TrimLeft(s)|])
    ensures |TrimLeft(s)| == 0 || !IsSpace(TrimLeft(s)[0])
    decreases |s|
  {
    if |s| > 0 && IsSpace(s[0]) {
      TrimLeftShape(s[1..]);
      assert s[..|s| - |TrimLeft(s)|] == [s[0]] + s[1..][..|s[1..]| - |TrimLeft(s[1..])|];
    }
  }

  /** What `TrimRight` removes is exactly a whitespace suffix, and what it
      keeps does not end with whitespace. */
  lemma {:induction false} TrimRightShape(s: string)
    ensures |TrimRight(s)| <= |s| && TrimRight(s) == s[..|TrimRight(s)|]
    ensures AllSpace(s[|TrimRight(s)|..])
    ensures |TrimRight(s)| == 0 || !IsSpace(TrimRight(s)[|TrimRight(s)| - 1])
    decreases |s|
  {
    if |s| > 0 && IsSpace(s[|s| - 1]) {
      var s' := s[..|s| - 1];
      TrimRightShape(s');
      assert s[|TrimRight(s)|..] == s'[|TrimRight(s')|..] + [s[|s| - 1]];
    }
  }

  /** Number of whitespace characters `strip` drops from the front of `s`. */
  function LeadingSpaces(s: string): (n: nat)
    ensures n <= |s|
  {
    TrimLeftShape(s);
    |s| - |TrimLeft(s)|
  }

  /** Ruby's `String#strip`: drops the leading and the trailing whitespace. */
  function Strip(s: string): string {
    TrimRight(TrimLeft(s))
  }

  /** What `strip` keeps is the middle of `s` between a whitespace prefix and
      a whitespace suffix, and has no whitespace at either end. */
  lemma StripShape(s: string)
    ensures Trimmed(Strip(s))
    ensures LeadingSpaces(s) + |Strip(s)| <= |s|
    ensures Strip(s) == s[LeadingSpaces(s)..LeadingSpaces(s) + |Strip(s)|]
    ensures AllSpace(s[..LeadingSpaces(s)])
    ensures AllSpace(s[LeadingSpaces(s) + |Strip(s)|..])
  {
    var l := TrimLeft(s);
    TrimLeftShape(s);
    TrimRightShape(l);
    var r := TrimRight(l);
    assert s[LeadingSpaces(s) + |r|..] == l[|r|..];
  }

  lemma {:induction false} TrimLeftPadded(p: string, u: string)
    requires AllSpace(p)
    requires |u| > 0 && !IsSpace(u[0])
    ensures TrimLeft(p + u) == u
    decreases |p|
  {
    if |p| > 0 {
      assert (p + u)[1..] == p[1..] + u;
      TrimLeftPadded(p[1..], u);
    } else {
      assert p + u == u;
    }
  }

  lemma {:induction false} TrimRightPadded(u: string, q: string)
    requires AllSpace(q)
    requires |u| > 0 && !IsSpace(u[|u| - 1])
    ensures TrimRight(u + q) == u
    decreases |q|
  {
    if |q| > 0 {
      assert (u + q)[..|u + q| - 1] == u + q[..|q| - 1];
      TrimRightPadded(u, q[..|q| - 1]);
    } else {
      assert u + q == u;
    }
  }

  /** `strip` gives back any trimmed text, whatever whitespace surrounds it. */
  lemma StripPadded(p: string, t: string, q: string)
    requires AllSpace(p) && AllSpace(q)
    requires Trimmed(t)
    ensures Strip(p + t + q) == t
  {
    if |t| > 0 {
      assert p + t + q == p + (t + q);
      TrimLeftPadded(p, t + q);
      TrimRightPadded(t, q);
    } else {
      var s := p + t + q;
      assert AllSpace(s) by {
        forall i | 0 <= i < |s|
          ensures IsSpace(s[i])
        {
          if i < |p| {
            assert s[i] == p[i];
          } else {
            assert s[i] == q[i - |p|];
          }
        }
      }
      StripBlank(s);
    }
  }

  /** `strip` of whitespace alone is empty. */
  lemma StripBlank(s: string)
    requires AllSpace(s)
    ensures Strip(s) == ""
  {
    StripShape(s);
  }

  /** Ruby's `\w` in its default (ASCII) meaning: a letter, a digit or `_`. */
  predicate IsWordChar(c: char) {
    ('a' <= c <= 'z') || ('A' <= c <= 'Z') || ('0' <= c <= '9') || c == '_'
  }

  predicate AllWord(s: string) {
    forall i :: 0 <= i < |s| ==> IsWordChar(s[i])
  }

  /** Ruby's `s.gsub(/\W/, '_')`: every word character stays in place and
      every other character becomes `_`. */
  function Sanitize(s: string): (r: string)
    ensures |r| == |s|
    ensures forall i :: 0 <= i < |s| ==> r[i] == (if IsWordChar(s[i]) then s[i] else '_')
  {
    if |s| == 0 then [] else [if IsWordChar(s[0]) then s[0] else '_'] + Sanitize(s[1..])
  }

  /** The sanitised text holds word characters only. */
  lemma SanitizeAllWord(s: string)
    ensures AllWord(Sanitize(s))
  {
  }

  /** A word-only string is its own sanitisation, and only such strings are. */
  lemma SanitizeFixpoint(s: string)
    ensures Sanitize(s) == s <==> AllWord(s)
  {
    if AllWord(s) {
      assert forall i :: 0 <= i < |s| ==> Sanitize(s)[i] == s[i];
    }
  }

  lemma SanitizeIdempotent(s: string)
    ensures Sanitize(Sanitize(s)) == Sanitize(s)
  {
    SanitizeAllWord(s);
    SanitizeFixpoint(Sanitize(s));
  }

  /** `n` spaces. */
  function Spaces(n: nat): (r: string)
    ensures |r| == n && AllBlanks(r)
  {
    if n == 0 then [] else " " + Spaces(n - 1)
  }

  /** Every character is the space character (the padding `ljust` uses). */
  predicate AllBlanks(s: string) {
    forall i :: 0 <= i < |s| ==> s[i] == ' '
  }

  /** Ruby's `s.ljust(width)`: pads on the right with spaces up to `width`,
      never truncating and never changing `s`. */
  function LJust(s: string, width: int): (r: string)
    ensures |r| == if width > |s| then width else |s|
    ensures r[..|s|] == s
    ensures AllBlanks(r[|s|..])
  {
    if width <= |s| then s else s + Spaces(width - |s|)
  }

  /** Padding an already padded text to the same width adds nothing. */
  lemma LJustIdempotent(s: string, width: int)
    ensures LJust(LJust(s, width), width) == LJust(s, width)
  {
  }

  /** `ljust` leaves the text alone exactly when it is already wide enough. */
  lemma LJustUnchangedIff(s: string, width: int)
    ensures LJust(s, width) == s <==> width <= |s|
  {
  }

  /** Ruby's `File.join(dir, name)` for a `name` that does not start with
      `/`: one separator between the parts, none added when `dir` already
      ends with `/`. */
  function Join(dir: string, name: string): (r: string)
    ensures |r| >= |dir| + |name| && r[..|dir|] == dir && r[|r| - |name|..] == name
    ensures |r| == |dir| + |name| <==> (|dir| > 0 && dir[|dir| - 1] == '/')
    ensures r[|dir|..|r| - |name|] == if |r| == |dir| + |name| then "" else "/"
  {
    if |dir| > 0 && dir[|dir| - 1] == '/' then dir + name else dir + "/" + name
  }

  /** The directory part of a join is fixed, so distinct names give distinct paths. */
  lemma JoinInjective(dir: string, a: string, b: string)
    ensures Join(dir, a) == Join(dir, b) <==> a == b
  {
    if Join(dir, a) == Join(dir, b) {
      assert |a| == |b|;
      assert a == Join(dir, a)[|Join(dir, a)| - |a|..];
    }
  }
}

=== FILE: worker.dfy ===
/**
 * The worker of lib/jcukeforker/worker.rb as a pure state machine: it
 * registers, then reads task lines one at a time, reporting a start and a
 * finish for each task, until a line whose stripped text is the sentinel
 * `__KILL__` makes it report its death and stop reading.
 *
 * The socket I/O is replaced by a sequence of inbound lines and a sequence
 * of outbound messages; `JSON.parse` is the parameter `decode` (None when
 * the line is not a task); the test engine's result for the k-th task is
 * the k-th element of the oracle `results`.
 */
module Worker {
  import opened Wrappers
  import opened Text
  import opened Status

  /** The line that tells a worker to shut down. */
  const Sentinel: string := "__KILL__"

  /** `raw_message.strip == '__KILL__'`. */
  predicate IsKill(line: string) {
    Strip(line) == Sentinel
  }

  /** Any whitespace around the sentinel, a trailing newline included, still stops the worker. */
  lemma KillWhenPadded(p: string, q: string)
    requires AllSpace(p) && AllSpace(q)
    ensures IsKill(p + Sentinel + q)
  {
    StripPadded(p, Sentinel, q);
  }

  /** Conversely, a line that stops the worker is the sentinel with whitespace around it and nothing else. */
  lemma KillOnlyWhenPadded(line: string)
    requires IsKill(line)
    ensures var i := LeadingSpaces(line);
      && i + |Sentinel| <= |line|
      && AllSpace(line[..i])
      && line[i..i + |Sentinel|] == Sentinel
      && AllSpace(line[i + |Sentinel|..])
  {
    StripShape(line);
  }

  /** A task as parsed from one inbound JSON line. */
  datatype Task = Task(format: string, feature: string, extraArgs: seq<string>, out: string)

  /** The worker's instance variables that the task loop reads and writes.
      Before the first task the four task fields hold Ruby's `nil`; the
      loop never reads them before `set_state` has written them, so they
      start here as empty values. */
  datatype WorkerState = WorkerState(
    taskPath: string,
    format: string,
    feature: string,
    extraArgs: seq<string>,
    out: string,
    basename: Option<string>)

  /** The task fields of the worker's state, as a task. */
  function TaskOf(w: WorkerState): Task {
    Task(w.format, w.feature, w.extraArgs, w.out)
  }

  /** The worker as constructed for `task_path`, with no task yet and no memoised base name. */
  function Fresh(taskPath: string): (w: WorkerState)
    ensures w.taskPath == taskPath && w.basename == None
  {
    WorkerState(taskPath, "", "", [], "", None)
  }

  /** `set_state`: overwrites the four task fields and nothing else; in
      particular the memoised base name survives. */
  function SetState(w: WorkerState, t: Task): (w': WorkerState)
    ensures TaskOf(w') == t
    ensures w'.taskPath == w.taskPath && w'.basename == w.basename
  {
    w.(format := t.format, feature := t.feature, extraArgs := t.extraArgs, out := t.out)
  }

  /** Only the last task written is visible: an earlier `set_state` leaves no trace
      in the task fields. */
  lemma SetStateOverwrites(w: WorkerState, a: Task, b: Task)
    ensures SetState(SetState(w, a), b) == SetState(w, b)
  {
  }

  /** How the base name of the artifact files is obtained. `Memoised` is the
      source's `@basename ||= ...`; `PerTask` recomputes it from the current
      feature every time (see the README's findings). */
  datatype BasenamePolicy = Memoised | PerTask

  /** `basename`: the sanitised feature, memoised on first use under `Memoised`. */
  function Basename(w: WorkerState, policy: BasenamePolicy): (r: (string, WorkerState))
    ensures r.1 == w.(basename := r.1.basename)
    ensures policy == Memoised ==> r.1.basename == Some(r.0)
    ensures policy == Memoised && w.basename.Some? ==> r == (w.basename.value, w)
    ensures policy == PerTask || w.basename.None? ==> r.0 == Sanitize(w.feature)
    ensures policy == PerTask ==> r.1 == w
  {
    match policy
    case Memoised =>
      if w.basename.Some? then (w.basename.value, w)
      else
        var name := Sanitize(w.feature);
        (name, w.(basename := Some(name)))
    case PerTask => (Sanitize(w.feature), w)
  }

  /** Asking for the base name a second time returns the same name and changes nothing:
      the later calls of `basename` within one task agree with the first. */
  lemma BasenameStable(w: WorkerState, policy: BasenamePolicy)
    ensures Basename(Basename(w, policy).1, policy) == Basename(w, policy)
  {
  }

  /** `p` names a file inside directory `dir`: it starts with `dir` and a
      `/` separates the two, unless `dir` already ends in one. */
  predicate InDirectory(dir: string, p: string) {
    && |p| > |dir| && p[..|dir|] == dir
    && ((|dir| > 0 && dir[|dir| - 1] == '/') || p[|dir|] == '/')
  }

  /** `p` ends in `.` and the extension `ext`. */
  predicate HasExtension(p: string, ext: string) {
    |p| > |ext| && p[|p| - |ext| - 1..] == "." + ext
  }

  /** `File.join out, "#{basename}.#{ext}"`. */
  function Artifact(out: string, name: string, ext: string): (p: string)
    ensures |p| > |out| + |ext|
    ensures InDirectory(out, p) && HasExtension(p, ext)
  {
    var file := name + "." + ext;
    var p := Join(out, file);
    assert p[|p| - |ext| - 1..] == file[|file| - |ext| - 1..];
    p
  }

  /** Within one directory, two artifact paths whose base names have the same
      length coincide exactly when the names and the extensions do. */
  lemma ArtifactInjectiveAtLength(out: string, a: string, b: string, x: string, y: string)
    requires |a| == |b|
    ensures Artifact(out, a, x) == Artifact(out, b, y) <==> a == b && x == y
  {
    JoinInjective(out, a + "." + x, b + "." + y);
    if a + "." + x == b + "." + y {
      assert a == (a + "." + x)[..|a|];
      assert x == (a + "." + x)[|a| + 1..];
    }
  }

  /** Within one directory, the artifact paths of two base names made of word
      characters, as `basename` always is, coincide exactly when the names and
      the extensions do: the first `.` of the file name ends the base name. */
  lemma ArtifactInjective(out: string, a: string, b: string, x: string, y: string)
    requires AllWord(a) && AllWord(b)
    ensures Artifact(out, a, x) == Artifact(out, b, y) <==> a == b && x == y
  {
    JoinInjective(out, a + "." + x, b + "." + y);
    if a + "." + x == b + "." + y {
      FirstDot(a, x);
      FirstDot(b, y);
      assert |a| == |b|;
      ArtifactInjectiveAtLength(out, a, b, x, y);
    }
  }

  /** In `name.ext` with a name of word characters, the first `.` is the one
      after the name. */
  lemma FirstDot(name: string, ext: string)
    requires AllWord(name)
    ensures (name + "." + ext)[|name|] == '.'
    ensures forall i :: 0 <= i < |name| ==> (name + "." + ext)[i] != '.'
  {
    forall i | 0 <= i < |name|
      ensures (name + "." + ext)[i] != '.'
    {
      assert (name + "." + ext)[i] == name[i] && IsWordChar(name[i]);
    }
  }

  /** The captured standard output and standard error of a task never share a file. */
  lemma StreamsDistinct(out: string, name: string)
    ensures Artifact(out, name, "stdout") != Artifact(out, name, "stderr")
  {
    ArtifactInjectiveAtLength(out, name, name, "stdout", "stderr");
  }

  /** `args`: `["--format", format, "--out", output]`, the extra arguments
      verbatim and in order, then the feature. */
  function Args(t: Task, output: string): (r: seq<string>)
    ensures |r| == 5 + |t.extraArgs|
    ensures r[0] == "--format" && r[1] == t.format
    ensures r[2] == "--out" && r[3] == output
    ensures r[4..|r| - 1] == t.extraArgs
    ensures r[|r| - 1] == t.feature
  {
    ["--format", t.format, "--out", output] + t.extraArgs + [t.feature]
  }

  /** The parts of an engine argument list as the engine's command line reads them. */
  datatype EngineArgs = EngineArgs(format: string, output: string, extraArgs: seq<string>, feature: string)

  /** Reads an argument list of the shape `args` builds back into its parts. */
  function ParseArgs(a: seq<string>): Option<EngineArgs> {
    if |a| >= 5 && a[0] == "--format" && a[2] == "--out" then
      Some(EngineArgs(a[1], a[3], a[4..|a| - 1], a[|a| - 1]))
    else None
  }

  /** The argument list loses nothing: format, output, extra arguments and feature come back. */
  lemma ArgsRoundTrip(t: Task, output: string)
    ensures ParseArgs(Args(t, output)) == Some(EngineArgs(t.format, output, t.extraArgs, t.feature))
  {
  }

  /** `output`: the engine's own report, in the task's output directory and
      named with the task's format as its extension. */
  function Output(t: Task, name: string): (r: string)
    ensures InDirectory(t.out, r) && HasExtension(r, t.format)
  {
    Artifact(t.out, name, t.format)
  }

  /** `stdout`: where the engine's standard output is captured, in the task's
      output directory, with extension `stdout`, and never the `stderr` file. */
  function Stdout(t: Task, name: string): (r: string)
    ensures InDirectory(t.out, r) && HasExtension(r, "stdout")
    ensures r != Stderr(t, name)
  {
    StreamsDistinct(t.out, name);
    Artifact(t.out, name, "stdout")
  }

  /** `stderr`: where the engine's standard error is captured, in the task's
      output directory, with extension `stderr`. */
  function Stderr(t: Task, name: string): (r: string)
    ensures InDirectory(t.out, r) && HasExtension(r, "stderr")
  {
    Artifact(t.out, name, "stderr")
  }

  /** One call of the test engine: the task it runs and the artifact base
      name its three files are named after. */
  datatype EngineCall = EngineCall(task: Task, name: string)

  /** The argument list the engine receives for a call. */
  function CallArgs(c: EngineCall): (r: seq<string>)
    ensures ParseArgs(r) == Some(EngineArgs(c.task.format, Output(c.task, c.name), c.task.extraArgs, c.task.feature))
  {
    ArgsRoundTrip(c.task, Output(c.task, c.name));
    Args(c.task, Output(c.task, c.name))
  }

  /** The part of `execute_cucumber` that is not the engine itself: `stdout`
      asks for the base name first (memoising it), and the later calls made
      by `stderr` and by `args` through `output` get the same name and leave
      the state as it is. */
  function Execute(w: WorkerState, policy: BasenamePolicy): (r: (EngineCall, WorkerState))
    ensures r.0.task == TaskOf(w)
    ensures r.0.name == if policy == Memoised && w.basename.Some? then w.basename.value else Sanitize(w.feature)
    ensures r.1 == w.(basename := if policy == Memoised then Some(r.0.name) else w.basename)
    ensures Basename(r.1, policy) == (r.0.name, r.1)
  {
    var (name, w') := Basename(w, policy);
    BasenameStable(w, policy);
    (EngineCall(TaskOf(w'), name), w')
  }

  /** How the task loop ended. `Stopped(n)`: the n-th line was the sentinel and
      nothing after it was read. `InputExhausted`: `gets` returned nil and
      `nil.strip` raised. `MalformedTask(i)`: line i did not parse as a task. */
  datatype Outcome = Stopped(consumed: nat) | InputExhausted | MalformedTask(line: nat)

  /** The messages written, the engine calls made, and how the run ended. */
  datatype Trace = Trace(messages: seq<Message>, calls: seq<EngineCall>, outcome: Outcome)

  /** The number of task lines before the first sentinel: how many engine results a run can ask for. */
  function TaskCount(lines: seq<string>): (n: nat)
    ensures n <= |lines|
  {
    if |lines| == 0 || IsKill(lines[0]) then 0 else 1 + TaskCount(lines[1..])
  }

  /** The lines before the first sentinel are exactly the first `TaskCount` lines. */
  lemma {:induction false} TaskCountPrefix(lines: seq<string>)
    ensures forall j :: 0 <= j < TaskCount(lines) ==> !IsKill(lines[j])
    ensures TaskCount(lines) < |lines| ==> IsKill(lines[TaskCount(lines)])
    decreases |lines|
  {
    if |lines| > 0 && !IsKill(lines[0]) {
      TaskCountPrefix(lines[1..]);
      forall j | 1 <= j < TaskCount(lines)
        ensures !IsKill(lines[j])
      {
        assert lines[j] == lines[1..][j - 1];
      }
      if TaskCount(lines) < |lines| {
        assert lines[TaskCount(lines)] == lines[1..][TaskCount(lines[1..])];
      }
    }
  }

  /** An outcome as seen from one line earlier in the input. */
  function Later(o: Outcome): Outcome {
    match o
    case Stopped(n) => Stopped(n + 1)
    case InputExhausted => InputExhausted
    case MalformedTask(i) => MalformedTask(i + 1)
  }

  /** The artifact base name a task with feature `current` gets, when the
      worker entered the loop with memoised name `memo` and the first task
      of the loop had feature `first`. */
  function ArtifactName(policy: BasenamePolicy, memo: Option<string>, first: string, current: string): string {
    match policy
    case Memoised => memo.GetOr(Sanitize(first))
    case PerTask => Sanitize(current)
  }

  /** The memoised name after the first task of a loop, with feature `first`, has run. */
  function NextMemo(policy: BasenamePolicy, memo: Option<string>, first: string): Option<string> {
    match policy
    case Memoised => Some(memo.GetOr(Sanitize(first)))
    case PerTask => memo
  }

  /** Once the first task has run, the names later tasks get do not depend
      on which task the remaining loop sees first. */
  lemma NamesAfterFirstTask(policy: BasenamePolicy, memo: Option<string>, first: string, other: string, current: string)
    ensures ArtifactName(policy, NextMemo(policy, memo, first), other, current)
         == ArtifactName(policy, memo, first, current)
  {
  }

  /** The loop processed only lines before the first sentinel, each of
      them parsed as a task, and the engine ran the task each line holds;
      the loop used one engine result per task. */
  predicate ServesTasks(lines: seq<string>, results: seq<bool>, decode: string -> Option<Task>, t: Trace) {
    && |t.calls| <= TaskCount(lines) <= |results|
    && forall j :: 0 <= j < |t.calls| ==> decode(lines[j]) == Some(t.calls[j].task)
  }

  /** Every engine call was named as the policy says, from the memoised
      name the loop started with and the feature of the loop's first task. */
  predicate ServesNames(policy: BasenamePolicy, memo: Option<string>, t: Trace) {
    forall j :: 0 <= j < |t.calls| ==>
      t.calls[j].name == ArtifactName(policy, memo, t.calls[0].task.feature, t.calls[j].task.feature)
  }

  /** Each processed task wrote a start and then a finish for its feature,
      in input order, carrying that task's engine result; an extra final
      message is there exactly when the loop stopped on the sentinel. */
  predicate ServesMessages(taskPath: string, results: seq<bool>, t: Trace) {
    && |t.calls| <= |results|
    && |t.messages| == 2 * |t.calls| + (if t.outcome.Stopped? then 1 else 0)
    && forall k :: 0 <= k < |t.calls| ==>
         && t.messages[2 * k] == Encode(taskPath, TaskStarting(t.calls[k].task.feature))
         && t.messages[2 * k + 1] == Encode(taskPath, TaskFinished(t.calls[k].task.feature, results[k]))
  }

  /** The loop ended on the first line after the processed ones: on the
      sentinel, which it answered with `on_worker_dead`; on the end of the
      input; or on a line that does not parse. */
  predicate ServesEnd(taskPath: string, lines: seq<string>, decode: string -> Option<Task>, t: Trace) {
    var n := |t.calls|;
    && n <= |lines|
    && (t.outcome.Stopped? ==>
          && t.outcome.consumed == n + 1 <= |lines| && IsKill(lines[n])
          && |t.messages| > 0 && t.messages[|t.messages| - 1] == Encode(taskPath, WorkerDead))
    && (t.outcome.InputExhausted? ==> n == |lines|)
    && (t.outcome.MalformedTask? ==>
          t.outcome.line == n < |lines| && !IsKill(lines[n]) && decode(lines[n]).None?)
  }

  /** Everything a run of the task loop over `lines`, from state `w`, promises. */
  predicate Serves(w: WorkerState, lines: seq<string>, results: seq<bool>,
                   decode: string -> Option<Task>, policy: BasenamePolicy, t: Trace)
  {
    && ServesTasks(lines, results, decode, t)
    && ServesNames(policy, w.basename, t)
    && ServesMessages(w.taskPath, results, t)
    && ServesEnd(w.taskPath, lines, decode, t)
  }

  /** The trace of one processed task in front of the trace of the remaining lines. */
  function Prepend(taskPath: string, call: EngineCall, status: bool, rest: Trace): Trace {
    var feature := call.task.feature;
    Trace([Encode(taskPath, TaskStarting(feature)), Encode(taskPath, TaskFinished(feature, status))] + rest.messages,
          [call] + rest.calls, Later(rest.outcome))
  }

  lemma TaskCountStep(lines: seq<string>)
    requires |lines| > 0 && !IsKill(lines[0])
    ensures TaskCount(lines) == 1 + TaskCount(lines[1..])
  {
  }

  lemma ServeStepTasks(lines: seq<string>, results: seq<bool>, decode: string -> Option<Task>,
                       call: EngineCall, t: Trace, rest: Trace)
    requires |lines| > 0 && !IsKill(lines[0])
    requires |results| >= TaskCount(lines)
    requires decode(lines[0]) == Some(call.task)
    requires ServesTasks(lines[1..], results[1..], decode, rest)
    requires t.calls == [call] + rest.calls
    ensures ServesTasks(lines, results, decode, t)
  {
    TaskCountStep(lines);
    ConsDecodes(lines, decode, call, rest.calls);
  }

  /** A task line in front of lines that decode to `calls` decodes to its call in front of them. */
  lemma ConsDecodes(lines: seq<string>, decode: string -> Option<Task>, call: EngineCall, calls: seq<EngineCall>)
    requires |lines| > |calls| && decode(lines[0]) == Some(call.task)
    requires forall j :: 0 <= j < |calls| ==> decode(lines[1..][j]) == Some(calls[j].task)
    ensures forall j :: 0 <= j < 1 + |calls| ==> decode(lines[j]) == Some(([call] + calls)[j].task)
  {
    forall j | 1 <= j < 1 + |calls|
      ensures decode(lines[j]) == Some(([call] + calls)[j].task)
    {
      assert ([call] + calls)[j] == calls[j - 1] && lines[j] == lines[1..][j - 1];
    }
  }

  lemma ServeStepNames(policy: BasenamePolicy, memo: Option<string>, call: EngineCall, t: Trace, rest: Trace)
    requires call.name == ArtifactName(policy, memo, call.task.feature, call.task.feature)
    requires ServesNames(policy, NextMemo(policy, memo, call.task.feature), rest)
    requires t.calls == [call] + rest.calls
    ensures ServesNames(policy, memo, t)
  {
    assert t.calls[0] == call;
    forall j | 1 <= j < |t.calls|
      ensures t.calls[j].name == ArtifactName(policy, memo, call.task.feature, t.calls[j].task.feature)
    {
      assert t.calls[j] == rest.calls[j - 1];
      NamesAfterFirstTask(policy, memo, call.task.feature, rest.calls[0].task.feature, t.calls[j].task.feature);
    }
  }

  lemma ServeStepMessages(taskPath: string, results: seq<bool>, call: EngineCall, rest: Trace)
    requires |results| > 0
    requires ServesMessages(taskPath, results[1..], rest)
    ensures ServesMessages(taskPath, results, Prepend(taskPath, call, results[0], rest))
  {
    var t := Prepend(taskPath, call, results[0], rest);
    forall k | 1 <= k < |t.calls|
      ensures && t.messages[2 * k] == Encode(taskPath, TaskStarting(t.calls[k].task.feature))
              && t.messages[2 * k + 1] == Encode(taskPath, TaskFinished(t.calls[k].task.feature, results[k]))
    {
      var c := rest.calls[k - 1];
      assert t.calls[k] == c;
      assert t.messages[2 * k] == rest.messages[2 * (k - 1)];
      assert t.messages[2 * k + 1] == rest.messages[2 * (k - 1) + 1];
      assert results[k] == results[1..][k - 1];
    }
  }

  lemma ServeStepEnd(taskPath: string, lines: seq<string>, decode: string -> Option<Task>,
                     call: EngineCall, status: bool, rest: Trace)
    requires |lines| > 0
    requires ServesEnd(taskPath, lines[1..], decode, rest)
    ensures ServesEnd(taskPath, lines, decode, Prepend(taskPath, call, status, rest))
  {
    var n := |rest.calls|;
    if n < |lines[1..]| {
      assert lines[n + 1] == lines[1..][n];
    }
  }

  /** One processed task line in front of a run of the loop over the remaining lines. */
  lemma ServeStep(w: WorkerState, w': WorkerState, lines: seq<string>, results: seq<bool>,
                  decode: string -> Option<Task>, policy: BasenamePolicy, call: EngineCall, rest: Trace)
    requires |lines| > 0 && !IsKill(lines[0])
    requires |results| >= TaskCount(lines)
    requires decode(lines[0]) == Some(call.task)
    requires call.name == ArtifactName(policy, w.basename, call.task.feature, call.task.feature)
    requires w'.taskPath == w.taskPath && w'.basename == NextMemo(policy, w.basename, call.task.feature)
    requires Serves(w', lines[1..], results[1..], decode, policy, rest)
    ensures Serves(w, lines, results, decode, policy, Prepend(w.taskPath, call, results[0], rest))
  {
    var t := Prepend(w.taskPath, call, results[0], rest);
    ServeStepTasks(lines, results, decode, call, t, rest);
    ServeStepNames(policy, w.basename, call, t, rest);
    ServeStepMessages(w.taskPath, results, call, rest);
    ServeStepEnd(w.taskPath, lines, decode, call, results[0], rest);
  }

  /** The `loop do ... end` of `run`. Each task line sets the task state,
      writes `on_task_starting`, runs the engine and writes
      `on_task_finished`; the sentinel writes `on_worker_dead` and ends the
      loop without reading further. */
  function Serve(w: WorkerState, lines: seq<string>, results: seq<bool>,
                 decode: string -> Option<Task>, policy: BasenamePolicy): (t: Trace)
    requires |results| >= TaskCount(lines)
    ensures Serves(w, lines, results, decode, policy, t)
    decreases |lines|
  {
    if |lines| == 0 then Trace([], [], InputExhausted)
    else if IsKill(lines[0]) then Trace([Encode(w.taskPath, WorkerDead)], [], Stopped(1))
    else match decode(lines[0])
      case None => Trace([], [], MalformedTask(0))
      case Some(task) =>
        var w1 := SetState(w, task);
        var started := Encode(w1.taskPath, TaskStarting(w1.feature));
        var (call, w2) := Execute(w1, policy);
        var finished := Encode(w2.taskPath, TaskFinished(w2.feature, results[0]));
        var rest := Serve(w2, lines[1..], results[1..], decode, policy);
        ServeStep(w, w2, lines, results, decode, policy, call, rest);
        Trace([started, finished] + rest.messages, [call] + rest.calls, Later(rest.outcome))
  }

  /** The last message of a loop that did not stop on the sentinel is a task
      finish, never `on_worker_dead`. */
  lemma LastIsDeadOnlyWhenStopped(taskPath: string, t: Trace, results: seq<bool>)
    requires ServesMessages(taskPath, results, t)
    requires t.outcome.Stopped? ==> |t.messages| > 0 && t.messages[|t.messages| - 1] == Encode(taskPath, WorkerDead)
    ensures |t.messages| > 0 ==>
      (t.outcome.Stopped? <==> t.messages[|t.messages| - 1] == Encode(taskPath, WorkerDead))
  {
    if !t.outcome.Stopped? && |t.messages| > 0 {
      var k := |t.calls| - 1;
      var c := t.calls[k];
      assert t.messages[|t.messages| - 1] == t.messages[2 * k + 1];
      assert t.messages[|t.messages| - 1][0] == Str("on_task_finished");
    }
  }

  /** `register` followed by `run`: the worker announces itself, then serves its task lines. */
  function Run(taskPath: string, lines: seq<string>, results: seq<bool>,
               decode: string -> Option<Task>, policy: BasenamePolicy): (t: Trace)
    requires |results| >= TaskCount(lines)
    ensures |t.messages| == 1 + 2 * |t.calls| + (if t.outcome.Stopped? then 1 else 0)
    ensures t.messages[0] == Encode(taskPath, WorkerRegister)
    ensures t.outcome.Stopped? <==> t.messages[|t.messages| - 1] == Encode(taskPath, WorkerDead)
  {
    var w := Fresh(taskPath);
    var t := Serve(w, lines, results, decode, policy);
    var messages := [Encode(taskPath, WorkerRegister)] + t.messages;
    assert ServesMessages(w.taskPath, results, t) && ServesEnd(w.taskPath, lines, decode, t);
    LastIsDeadOnlyWhenStopped(w.taskPath, t, results);
    EncodeInjective(taskPath, WorkerRegister, WorkerDead);
    assert |t.messages| > 0 ==> messages[|messages| - 1] == t.messages[|t.messages| - 1];
    Trace(messages, t.calls, t.outcome)
  }
}

=== FILE: worker_trace.dfy ===
/**
 * Whole-run properties of the worker: the exact message sequence for a
 * stream of tasks ending in the sentinel, the error outcomes when the
 * stream ends early or holds a line that is not a task, the event order
 * every run keeps, that nothing after the sentinel is read, and what the
 * memoised artifact base name does to the files of later tasks.
 */
module WorkerTrace {
  import opened Wrappers
  import opened Text
  import opened Status
  import opened Worker

  /** The start and finish messages that `tasks`, run in order with engine
      results `results`, should produce: for the k-th task, its start at
      position 2k and its finish at 2k + 1. */
  function TaskMessages(taskPath: string, tasks: seq<Task>, results: seq<bool>): (ms: seq<Message>)
    requires |results| >= |tasks|
    ensures |ms| == 2 * |tasks|
  {
    seq(2 * |tasks|, i requires 0 <= i < 2 * |tasks| =>
      if i % 2 == 0 then Encode(taskPath, TaskStarting(tasks[i / 2].feature))
      else Encode(taskPath, TaskFinished(tasks[i / 2].feature, results[i / 2])))
  }

  lemma TaskMessagesAt(taskPath: string, tasks: seq<Task>, results: seq<bool>, k: nat)
    requires |results| >= |tasks| && k < |tasks|
    ensures TaskMessages(taskPath, tasks, results)[2 * k] == Encode(taskPath, TaskStarting(tasks[k].feature))
    ensures TaskMessages(taskPath, tasks, results)[2 * k + 1]
         == Encode(taskPath, TaskFinished(tasks[k].feature, results[k]))
  {
    assert (2 * k) / 2 == k && (2 * k + 1) / 2 == k;
  }

  /** Lines that are all task lines, in front of whatever follows. */
  predicate TaskPrefix(lines: seq<string>, tasks: seq<Task>, decode: string -> Option<Task>) {
    && |tasks| <= |lines|
    && forall i :: 0 <= i < |tasks| ==> !IsKill(lines[i]) && decode(lines[i]) == Some(tasks[i])
  }

  /** The loop's task lines are exactly the prefix in front of a sentinel or
      of the end of the input. */
  lemma TaskCountOfPrefix(lines: seq<string>, tasks: seq<Task>, decode: string -> Option<Task>)
    requires TaskPrefix(lines, tasks, decode)
    requires |tasks| < |lines| ==> IsKill(lines[|tasks|])
    ensures TaskCount(lines) == |tasks|
  {
    TaskCountPrefix(lines);
    if TaskCount(lines) < |tasks| {
      assert !IsKill(lines[TaskCount(lines)]);
    }
  }

  /** Whatever comes after a prefix of task lines, a loop trace covers every
      task of the prefix, in order. */
  lemma PrefixCalls(taskPath: string, tasks: seq<Task>, lines: seq<string>, results: seq<bool>,
                    decode: string -> Option<Task>, s: Trace)
    requires TaskPrefix(lines, tasks, decode)
    requires ServesTasks(lines, results, decode, s) && ServesEnd(taskPath, lines, decode, s)
    ensures |tasks| <= |s.calls|
    ensures forall i :: 0 <= i < |tasks| ==> s.calls[i].task == tasks[i]
  {
    assert |tasks| <= |s.calls|;
    forall i | 0 <= i < |tasks|
      ensures s.calls[i].task == tasks[i]
    {
      assert decode(lines[i]) == Some(s.calls[i].task);
    }
  }

  /** A loop trace whose first calls ran `tasks` begins with their messages. */
  lemma PrefixMessages(taskPath: string, tasks: seq<Task>, results: seq<bool>, s: Trace)
    requires ServesMessages(taskPath, results, s)
    requires |tasks| <= |s.calls|
    requires forall i :: 0 <= i < |tasks| ==> s.calls[i].task == tasks[i]
    ensures s.messages[..2 * |tasks|] == TaskMessages(taskPath, tasks, results)
  {
    var expected := TaskMessages(taskPath, tasks, results);
    forall k | 0 <= k < |tasks|
      ensures s.messages[2 * k] == expected[2 * k] && s.messages[2 * k + 1] == expected[2 * k + 1]
    {
      TaskMessagesAt(taskPath, tasks, results, k);
    }
    PairwiseEqual(s.messages, expected, |tasks|);
  }

  /** Two sequences that agree on every pair of positions 2k, 2k + 1 below 2n. */
  lemma PairwiseEqual<T>(xs: seq<T>, ys: seq<T>, n: nat)
    requires |xs| >= 2 * n && |ys| == 2 * n
    requires forall k :: 0 <= k < n ==> xs[2 * k] == ys[2 * k] && xs[2 * k + 1] == ys[2 * k + 1]
    ensures xs[..2 * n] == ys
  {
    forall i | 0 <= i < 2 * n
      ensures xs[i] == ys[i]
    {
      var k := i / 2;
      assert i == 2 * k || i == 2 * k + 1;
    }
  }

  /** A sequence that is `middle` followed by `last`, with `first` in front. */
  lemma Framed<T>(first: T, middle: seq<T>, last: T, xs: seq<T>)
    requires |xs| == |middle| + 1 && xs[..|middle|] == middle && xs[|middle|] == last
    ensures [first] + xs == [first] + middle + [last]
  {
    assert xs == xs[..|middle|] + [xs[|middle|]];
  }

  /** A run is `on_worker_register` in front of the task loop's trace. */
  lemma RunIsRegisterThenServe(taskPath: string, lines: seq<string>, results: seq<bool>,
                               decode: string -> Option<Task>, policy: BasenamePolicy)
    requires |results| >= TaskCount(lines)
    ensures var s := Serve(Fresh(taskPath), lines, results, decode, policy);
      && Run(taskPath, lines, results, decode, policy)
         == Trace([Encode(taskPath, WorkerRegister)] + s.messages, s.calls, s.outcome)
      && Serves(Fresh(taskPath), lines, results, decode, policy, s)
  {
  }

  /** A loop trace over N task lines and then the sentinel runs exactly
      those N tasks and stops after reading N + 1 lines. */
  lemma ServedThenSentinel(taskPath: string, tasks: seq<Task>, lines: seq<string>, results: seq<bool>,
                           decode: string -> Option<Task>, s: Trace)
    requires TaskPrefix(lines, tasks, decode)
    requires |tasks| < |lines| && IsKill(lines[|tasks|])
    requires ServesTasks(lines, results, decode, s) && ServesEnd(taskPath, lines, decode, s)
    ensures |s.calls| == |tasks|
    ensures s.outcome == Stopped(|tasks| + 1)
    ensures forall i :: 0 <= i < |tasks| ==> s.calls[i].task == tasks[i]
  {
    TaskCountOfPrefix(lines, tasks, decode);
    PrefixCalls(taskPath, tasks, lines, results, decode, s);
  }

  /** The messages of a loop trace that ran `tasks` and then stopped. */
  lemma StoppedMessages(taskPath: string, tasks: seq<Task>, results: seq<bool>, s: Trace)
    requires ServesMessages(taskPath, results, s)
    requires |s.calls| == |tasks| && s.outcome.Stopped?
    requires forall i :: 0 <= i < |tasks| ==> s.calls[i].task == tasks[i]
    requires s.messages[|s.messages| - 1] == Encode(taskPath, WorkerDead)
    ensures [Encode(taskPath, WorkerRegister)] + s.messages
         == [Encode(taskPath, WorkerRegister)] + TaskMessages(taskPath, tasks, results) + [Encode(taskPath, WorkerDead)]
  {
    PrefixMessages(taskPath, tasks, results, s);
    Framed(Encode(taskPath, WorkerRegister), TaskMessages(taskPath, tasks, results), Encode(taskPath, WorkerDead), s.messages);
  }

  /** N task lines followed by the sentinel: one `on_worker_register`, the N
      start/finish pairs in input order, one `on_worker_dead`, and exactly
      N + 1 lines read. */
  lemma RunTasksThenSentinel(taskPath: string, tasks: seq<Task>, lines: seq<string>, results: seq<bool>,
                             decode: string -> Option<Task>, policy: BasenamePolicy)
    requires TaskPrefix(lines, tasks, decode)
    requires |tasks| < |lines| && IsKill(lines[|tasks|])
    requires |results| >= |tasks|
    ensures TaskCount(lines) == |tasks|
    ensures var t := Run(taskPath, lines, results, decode, policy);
      && t.outcome == Stopped(|tasks| + 1)
      && t.messages == [Encode(taskPath, WorkerRegister)] + TaskMessages(taskPath, tasks, results)
                       + [Encode(taskPath, WorkerDead)]
      && |t.calls| == |tasks|
      && forall i :: 0 <= i < |tasks| ==> t.calls[i].task == tasks[i]
  {
    TaskCountPrefix(lines);
    assert TaskCount(lines) == |tasks|;
    RunIsRegisterThenServe(taskPath, lines, results, decode, policy);
    var s := Serve(Fresh(taskPath), lines, results, decode, policy);
    ServedThenSentinel(taskPath, tasks, lines, results, decode, s);
    StoppedMessages(taskPath, tasks, results, s);
  }

  /** A loop trace over N task lines and nothing after them runs exactly
      those N tasks and then finds the input exhausted. */
  lemma ServedToEnd(taskPath: string, tasks: seq<Task>, lines: seq<string>, results: seq<bool>,
                    decode: string -> Option<Task>, s: Trace)
    requires TaskPrefix(lines, tasks, decode) && |lines| == |tasks|
    requires ServesTasks(lines, results, decode, s) && ServesEnd(taskPath, lines, decode, s)
    ensures |s.calls| == |tasks|
    ensures s.outcome == InputExhausted
    ensures forall i :: 0 <= i < |tasks| ==> s.calls[i].task == tasks[i]
  {
    PrefixCalls(taskPath, tasks, lines, results, decode, s);
  }

  /** A loop trace over N task lines and then a line that does not parse runs
      exactly those N tasks and fails on the line after them. */
  lemma ServedThenMalformed(taskPath: string, tasks: seq<Task>, lines: seq<string>, results: seq<bool>,
                            decode: string -> Option<Task>, s: Trace)
    requires TaskPrefix(lines, tasks, decode)
    requires |tasks| < |lines| && !IsKill(lines[|tasks|]) && decode(lines[|tasks|]).None?
    requires ServesTasks(lines, results, decode, s) && ServesEnd(taskPath, lines, decode, s)
    ensures |s.calls| == |tasks|
    ensures s.outcome == MalformedTask(|tasks|)
    ensures forall i :: 0 <= i < |tasks| ==> s.calls[i].task == tasks[i]
  {
    PrefixCalls(taskPath, tasks, lines, results, decode, s);
  }

  /** The messages of a loop trace that ran `tasks` and then failed. */
  lemma UnstoppedMessages(taskPath: string, tasks: seq<Task>, results: seq<bool>, s: Trace)
    requires ServesMessages(taskPath, results, s)
    requires |s.calls| == |tasks| && !s.outcome.Stopped?
    requires forall i :: 0 <= i < |tasks| ==> s.calls[i].task == tasks[i]
    ensures [Encode(taskPath, WorkerRegister)] + s.messages
         == [Encode(taskPath, WorkerRegister)] + TaskMessages(taskPath, tasks, results)
    ensures Encode(taskPath, WorkerDead) !in [Encode(taskPath, WorkerRegister)] + s.messages
  {
    PrefixMessages(taskPath, tasks, results, s);
    assert s.messages == s.messages[..2 * |tasks|];
    NoDeadBeforeEnd(taskPath, s, results, |s.messages|);
    EncodeInjective(taskPath, WorkerRegister, WorkerDead);
  }

  /** The input ends after N task lines with no sentinel: `gets` returns nil,
      `nil.strip` raises, and the run ends in that error after the N pairs,
      without `on_worker_dead`. */
  lemma RunWithoutSentinel(taskPath: string, tasks: seq<Task>, lines: seq<string>, results: seq<bool>,
                           decode: string -> Option<Task>, policy: BasenamePolicy)
    requires TaskPrefix(lines, tasks, decode) && |lines| == |tasks|
    requires |results| >= |tasks|
    ensures TaskCount(lines) == |tasks|
    ensures var t := Run(taskPath, lines, results, decode, policy);
      && t.outcome == InputExhausted
      && t.messages == [Encode(taskPath, WorkerRegister)] + TaskMessages(taskPath, tasks, results)
      && Encode(taskPath, WorkerDead) !in t.messages
  {
    TaskCountOfPrefix(lines, tasks, decode);
    RunIsRegisterThenServe(taskPath, lines, results, decode, policy);
    var s := Serve(Fresh(taskPath), lines, results, decode, policy);
    ServedToEnd(taskPath, tasks, lines, results, decode, s);
    UnstoppedMessages(taskPath, tasks, results, s);
  }

  /** After N task lines, a line that is neither the sentinel nor a task stops
      the run with a parse error after the N pairs, without `on_worker_dead`. */
  lemma RunMalformedLine(taskPath: string, tasks: seq<Task>, lines: seq<string>, results: seq<bool>,
                         decode: string -> Option<Task>, policy: BasenamePolicy)
    requires TaskPrefix(lines, tasks, decode)
    requires |tasks| < |lines| && !IsKill(lines[|tasks|]) && decode(lines[|tasks|]).None?
    requires |results| >= TaskCount(lines)
    ensures var t := Run(taskPath, lines, results, decode, policy);
      && t.outcome == MalformedTask(|tasks|)
      && t.messages == [Encode(taskPath, WorkerRegister)] + TaskMessages(taskPath, tasks, results)
      && Encode(taskPath, WorkerDead) !in t.messages
  {
    RunIsRegisterThenServe(taskPath, lines, results, decode, policy);
    var s := Serve(Fresh(taskPath), lines, results, decode, policy);
    ServedThenMalformed(taskPath, tasks, lines, results, decode, s);
    UnstoppedMessages(taskPath, tasks, results, s);
  }

  /** None of the start/finish messages is `on_worker_dead`. */
  lemma NoDeadBeforeEnd(taskPath: string, s: Trace, results: seq<bool>, upTo: nat)
    requires ServesMessages(taskPath, results, s)
    requires upTo <= 2 * |s.calls|
    ensures Encode(taskPath, WorkerDead) !in s.messages[..upTo]
  {
    forall i | 0 <= i < upTo
      ensures s.messages[i] != Encode(taskPath, WorkerDead)
    {
      var k := i / 2;
      var f := s.calls[k].task.feature;
      if i == 2 * k {
        assert s.messages[i] == Encode(taskPath, TaskStarting(f));
        EncodeInjective(taskPath, TaskStarting(f), WorkerDead);
      } else {
        assert s.messages[i] == Encode(taskPath, TaskFinished(f, results[k]));
        EncodeInjective(taskPath, TaskFinished(f, results[k]), WorkerDead);
      }
    }
  }

  /** Every message of the task loop decodes to an event of this worker other
      than `on_worker_register`, and `on_worker_dead` only as the last. */
  lemma LoopMessageDecodes(taskPath: string, results: seq<bool>, s: Trace, j: nat)
    requires ServesMessages(taskPath, results, s)
    requires s.outcome.Stopped? ==> s.messages[|s.messages| - 1] == Encode(taskPath, WorkerDead)
    requires j < |s.messages|
    ensures Decode(s.messages[j]).Some? && Decode(s.messages[j]).value.0 == taskPath
    ensures Decode(s.messages[j]).value.1 != WorkerRegister
    ensures Decode(s.messages[j]).value.1 == WorkerDead ==> j == |s.messages| - 1
  {
    if j < 2 * |s.calls| {
      var k := j / 2;
      var f := s.calls[k].task.feature;
      if j == 2 * k {
        DecodeEncode(taskPath, TaskStarting(f));
      } else {
        DecodeEncode(taskPath, TaskFinished(f, results[k]));
      }
    } else {
      DecodeEncode(taskPath, WorkerDead);
    }
  }

  /** The order of events a worker's messages must keep: every message
      decodes to an event of the worker at `taskPath`; `on_worker_register`
      is the first message and only the first; `on_worker_dead` can only be
      the last. */
  predicate EventOrder(taskPath: string, ms: seq<Message>) {
    forall i :: 0 <= i < |ms| ==>
      && Decode(ms[i]).Some?
      && Decode(ms[i]).value.0 == taskPath
      && (Decode(ms[i]).value.1 == WorkerRegister <==> i == 0)
      && (Decode(ms[i]).value.1 == WorkerDead ==> i == |ms| - 1)
  }

  /** `on_worker_register` in front of a loop trace keeps the event order. */
  lemma RegisterThenLoopOrder(taskPath: string, results: seq<bool>, s: Trace)
    requires ServesMessages(taskPath, results, s)
    requires s.outcome.Stopped? ==> s.messages[|s.messages| - 1] == Encode(taskPath, WorkerDead)
    ensures EventOrder(taskPath, [Encode(taskPath, WorkerRegister)] + s.messages)
  {
    var ms := [Encode(taskPath, WorkerRegister)] + s.messages;
    forall i | 0 <= i < |ms|
      ensures && Decode(ms[i]).Some?
              && Decode(ms[i]).value.0 == taskPath
              && (Decode(ms[i]).value.1 == WorkerRegister <==> i == 0)
              && (Decode(ms[i]).value.1 == WorkerDead ==> i == |ms| - 1)
    {
      if i == 0 {
        DecodeEncode(taskPath, WorkerRegister);
      } else {
        assert ms[i] == s.messages[i - 1];
        LoopMessageDecodes(taskPath, results, s, i - 1);
      }
    }
  }

  /** Every run keeps the event order, whatever its input. */
  lemma RunEventOrder(taskPath: string, lines: seq<string>, results: seq<bool>,
                      decode: string -> Option<Task>, policy: BasenamePolicy)
    requires |results| >= TaskCount(lines)
    ensures EventOrder(taskPath, Run(taskPath, lines, results, decode, policy).messages)
  {
    RunIsRegisterThenServe(taskPath, lines, results, decode, policy);
    RegisterThenLoopOrder(taskPath, results, Serve(Fresh(taskPath), lines, results, decode, policy));
  }

  /** One turn of the loop on a task line, in terms of the trace of the rest. */
  lemma ServeTaskLine(w: WorkerState, lines: seq<string>, results: seq<bool>,
                      decode: string -> Option<Task>, policy: BasenamePolicy)
    requires |lines| > 0 && !IsKill(lines[0]) && decode(lines[0]).Some?
    requires |results| >= TaskCount(lines)
    ensures TaskCount(lines) == 1 + TaskCount(lines[1..])
    ensures var x := Execute(SetState(w, decode(lines[0]).value), policy);
      Serve(w, lines, results, decode, policy)
      == Prepend(w.taskPath, x.0, results[0], Serve(x.1, lines[1..], results[1..], decode, policy))
  {
    TaskCountStep(lines);
  }

  lemma AppendTail<T>(xs: seq<T>, ys: seq<T>)
    requires |xs| > 0
    ensures (xs + ys)[0] == xs[0] && (xs + ys)[1..] == xs[1..] + ys
  {
  }

  /** Appending input after a task line changes the loop's trace only through
      the trace of the lines after it. */
  lemma ServeAppendTaskLine(w: WorkerState, lines: seq<string>, extra: seq<string>, results: seq<bool>,
                            decode: string -> Option<Task>, policy: BasenamePolicy)
    requires |lines| > 0 && !IsKill(lines[0]) && decode(lines[0]).Some?
    requires |results| >= TaskCount(lines)
    requires TaskCount(lines[1..] + extra) == TaskCount(lines[1..]) < |results|
    requires var w2 := Execute(SetState(w, decode(lines[0]).value), policy).1;
      Serve(w2, lines[1..] + extra, results[1..], decode, policy) == Serve(w2, lines[1..], results[1..], decode, policy)
    ensures TaskCount(lines + extra) == TaskCount(lines)
    ensures Serve(w, lines + extra, results, decode, policy) == Serve(w, lines, results, decode, policy)
  {
    var longer := lines + extra;
    AppendTail(lines, extra);
    ServeTaskLine(w, lines, results, decode, policy);
    ServeTaskLine(w, longer, results, decode, policy);
  }

  /** Once the loop has stopped on the sentinel, lines after it are never read:
      appending more input changes nothing. */
  lemma {:induction false} ServeIgnoresLinesAfterSentinel(
    w: WorkerState, lines: seq<string>, extra: seq<string>, results: seq<bool>,
    decode: string -> Option<Task>, policy: BasenamePolicy)
    requires |results| >= TaskCount(lines)
    requires Serve(w, lines, results, decode, policy).outcome.Stopped?
    ensures TaskCount(lines + extra) == TaskCount(lines)
    ensures Serve(w, lines + extra, results, decode, policy) == Serve(w, lines, results, decode, policy)
    decreases |lines|
  {
    assert |lines| > 0;
    AppendTail(lines, extra);
    if !IsKill(lines[0]) {
      var x := Execute(SetState(w, decode(lines[0]).value), policy);
      ServeTaskLine(w, lines, results, decode, policy);
      ServeIgnoresLinesAfterSentinel(x.1, lines[1..], extra, results[1..], decode, policy);
      ServeAppendTaskLine(w, lines, extra, results, decode, policy);
    }
  }

  /** Once a run has stopped on the sentinel, lines after it are never read. */
  lemma RunIgnoresLinesAfterSentinel(taskPath: string, lines: seq<string>, extra: seq<string>, results: seq<bool>,
                                     decode: string -> Option<Task>, policy: BasenamePolicy)
    requires |results| >= TaskCount(lines)
    requires Run(taskPath, lines, results, decode, policy).outcome.Stopped?
    ensures TaskCount(lines + extra) == TaskCount(lines)
    ensures Run(taskPath, lines + extra, results, decode, policy) == Run(taskPath, lines, results, decode, policy)
  {
    ServeIgnoresLinesAfterSentinel(Fresh(taskPath), lines, extra, results, decode, policy);
  }

  /** A run covers every task of a prefix of task lines, in order, whatever follows. */
  lemma RunCoversPrefix(taskPath: string, tasks: seq<Task>, lines: seq<string>, results: seq<bool>,
                        decode: string -> Option<Task>, policy: BasenamePolicy)
    requires TaskPrefix(lines, tasks, decode)
    requires |results| >= TaskCount(lines)
    ensures var c := Run(taskPath, lines, results, decode, policy).calls;
      |tasks| <= |c| && forall i :: 0 <= i < |tasks| ==> c[i].task == tasks[i]
  {
    RunIsRegisterThenServe(taskPath, lines, results, decode, policy);
    PrefixCalls(taskPath, tasks, lines, results, decode, Serve(Fresh(taskPath), lines, results, decode, policy));
  }

  /** As written: `@basename ||=` keeps the name of the first task, so every
      engine call of the run is named after the first task's feature. */
  lemma MemoisedRunNames(taskPath: string, lines: seq<string>, results: seq<bool>, decode: string -> Option<Task>)
    requires |results| >= TaskCount(lines)
    ensures var c := Run(taskPath, lines, results, decode, Memoised).calls;
      forall j :: 0 <= j < |c| ==> c[j].name == Sanitize(c[0].task.feature)
  {
    RunIsRegisterThenServe(taskPath, lines, results, decode, Memoised);
  }

  /** Corrected: with the base name computed per task, every engine call is
      named after its own task's feature. */
  lemma PerTaskRunNames(taskPath: string, lines: seq<string>, results: seq<bool>, decode: string -> Option<Task>)
    requires |results| >= TaskCount(lines)
    ensures var c := Run(taskPath, lines, results, decode, PerTask).calls;
      forall j :: 0 <= j < |c| ==> c[j].name == Sanitize(c[j].task.feature)
  {
    RunIsRegisterThenServe(taskPath, lines, results, decode, PerTask);
  }

  /** As written: two tasks in a row that write to the same directory get
      the same standard-output and standard-error files, whatever their
      features; the second overwrites the first's. */
  lemma MemoisedArtifactsCollide(taskPath: string, a: Task, b: Task, lines: seq<string>, results: seq<bool>,
                                 decode: string -> Option<Task>)
    requires TaskPrefix(lines, [a, b], decode) && |results| >= TaskCount(lines)
    requires a.out == b.out
    ensures var c := Run(taskPath, lines, results, decode, Memoised).calls;
      && |c| >= 2 && c[0].task == a && c[1].task == b
      && Stdout(b, c[1].name) == Stdout(a, c[0].name)
      && Stderr(b, c[1].name) == Stderr(a, c[0].name)
      && (a.format == b.format ==> Output(b, c[1].name) == Output(a, c[0].name))
  {
    RunCoversPrefix(taskPath, [a, b], lines, results, decode, Memoised);
    MemoisedRunNames(taskPath, lines, results, decode);
  }

  /** Corrected: two tasks in a row whose features sanitise to different
      names get different standard-output, standard-error and report files. */
  lemma PerTaskArtifactsSeparate(taskPath: string, a: Task, b: Task, lines: seq<string>, results: seq<bool>,
                                 decode: string -> Option<Task>)
    requires TaskPrefix(lines, [a, b], decode) && |results| >= TaskCount(lines)
    requires a.out == b.out && Sanitize(a.feature) != Sanitize(b.feature)
    ensures var c := Run(taskPath, lines, results, decode, PerTask).calls;
      && |c| >= 2 && c[0].task == a && c[1].task == b
      && Stdout(b, c[1].name) != Stdout(a, c[0].name)
      && Stderr(b, c[1].name) != Stderr(a, c[0].name)
      && Output(b, c[1].name) != Output(a, c[0].name)
  {
    RunCoversPrefix(taskPath, [a, b], lines, results, decode, PerTask);
    PerTaskRunNames(taskPath, lines, results, decode);
    var x, y := Sanitize(b.feature), Sanitize(a.feature);
    SanitizeAllWord(b.feature);
    SanitizeAllWord(a.feature);
    ArtifactInjective(a.out, x, y, "stdout", "stdout");
    ArtifactInjective(a.out, x, y, "stderr", "stderr");
    ArtifactInjective(a.out, x, y, b.format, a.format);
  }

  /** Two tasks, on features `features/a.feature` and `features/b.feature`,
      both writing to `/tmp/o`. */
  const TaskA := Task("pretty", "features/a.feature", [], "/tmp/o")
  const TaskB := Task("pretty", "features/b.feature", [], "/tmp/o")

  /** An input that holds the two tasks and then the sentinel. */
  const ExampleLines := ["a", "b", Sentinel]

  function ExampleDecode(line: string): Option<Task> {
    if line == "a" then Some(TaskA) else if line == "b" then Some(TaskB) else None
  }

  /** The example input is two task lines and then the sentinel. */
  lemma ExampleIsTwoTasks()
    ensures TaskPrefix(ExampleLines, [TaskA, TaskB], ExampleDecode)
    ensures IsKill(ExampleLines[2])
  {
    assert IsKill(Sentinel) by {
      KillWhenPadded("", "");
      assert "" + Sentinel + "" == Sentinel;
    }
  }

  /** Two texts that differ at a position where both hold word characters
      sanitise to different names. */
  lemma SanitizeDiffersAt(s: string, t: string, i: nat)
    requires i < |s| && i < |t| && IsWordChar(s[i]) && IsWordChar(t[i]) && s[i] != t[i]
    ensures Sanitize(s) != Sanitize(t)
  {
    assert Sanitize(s)[i] != Sanitize(t)[i];
  }

  /** The two example features sanitise to different base names. */
  lemma ExampleNamesDiffer()
    ensures Sanitize(TaskA.feature) != Sanitize(TaskB.feature)
  {
    SanitizeDiffersAt(TaskA.feature, TaskB.feature, 9);
  }

  /** As written, on the example input: the two tasks run in order, and the
      second task's captured output lands in the first task's file. */
  lemma MemoisedCollisionExample(taskPath: string, results: seq<bool>)
    requires |results| >= TaskCount(ExampleLines)
    ensures TaskCount(ExampleLines) == 2
    ensures var c := Run(taskPath, ExampleLines, results, ExampleDecode, Memoised).calls;
      && |c| >= 2 && c[0].task == TaskA && c[1].task == TaskB
      && Stdout(TaskB, c[1].name) == Stdout(TaskA, c[0].name)
  {
    ExampleIsTwoTasks();
    TaskCountOfPrefix(ExampleLines, [TaskA, TaskB], ExampleDecode);
    MemoisedArtifactsCollide(taskPath, TaskA, TaskB, ExampleLines, results, ExampleDecode);
  }

  /** Corrected, on the same input: the two tasks keep separate files. */
  lemma PerTaskSeparationExample(taskPath: string, results: seq<bool>)
    requires |results| >= TaskCount(ExampleLines)
    ensures TaskCount(ExampleLines) == 2
    ensures var c := Run(taskPath, ExampleLines, results, ExampleDecode, PerTask).calls;
      && |c| >= 2 && c[0].task == TaskA && c[1].task == TaskB
      && Stdout(TaskB, c[1].name) != Stdout(TaskA, c[0].name)
  {
    ExampleIsTwoTasks();
    TaskCountOfPrefix(ExampleLines, [TaskA, TaskB], ExampleDecode);
    ExampleNamesDiffer();
    PerTaskArtifactsSeparate(taskPath, TaskA, TaskB, ExampleLines, results, ExampleDecode);
  }
}

=== FILE: wrappers.dfy ===
/** The optional-value datatype used for Ruby's `nil` and for decoding that may fail. */
module Wrappers {

  datatype Option<+T> = None | Some(value: T) {

    /** Returns the value held in Some, or `default` when None (Ruby's `x || default`). */
    function GetOr(default: T): T {
      match this
      case Some(v) => v
      case None => default
    }
  }
}
